=== FILE: README.md ===
# Order service: data mapping and HTTP handlers

This project models the order microservice's data layer and its order endpoints in Dafny.

- **Conversion pair.** An `Order` converts to an `OrderDto` and back. The order holds a 12-byte document identifier, a 64-bit timestamp and a list of product lines. The transfer object holds the identifier and the timestamp as text.
- **Legacy conversion pair.** An older `Order`/`OrderDto` pair has a 32-bit product-number list, and its timestamp stays an integer.
- **Library codecs.** The conversions rely on two library text codecs, modelled explicitly:
  - `ObjectIds`: `ObjectId.ToString` gives 24 lower-case hex digits. `ObjectId.TryParse` succeeds iff the text is exactly 24 hex digits, in either case.
  - `Int64Text`: `long.ToString` gives shortest decimal text. `long.TryParse` uses the integer number style. It accepts optional white space, an optional `+` or `-`, at least one ASCII digit, optional white space and optional trailing NUL characters. It fails when the value is outside the 64-bit range.
- **Endpoints.** The handlers `GetAllOrders`, `GetOrderById`, `CreateOrder`, `UpdateOrder` and `DeleteOrder` are modelled as total functions. Each takes an immutable store: a map from identifier to order. Each returns the HTTP result together with the store after the call.

Modules, one per source component:

| module | file | models |
|---|---|---|
| `Wrappers` | wrappers.dfy | the `TryParse` success/failure outcome |
| `ObjectIds` | object_id.dfy | the document store's identifier and its hex text |
| `Int64Text` | int64_text.dfy | `long.ToString` / `long.TryParse` |
| `Orders` | orders.dfy | `APICommande/Models/OrderDto.cs` and the record it converts |
| `LegacyOrders` | legacy_orders.dfy | `APICommande/OrderDto.cs` over `APICommande/Order.cs` |
| `JsonApi` | json_api.dfy | `APICommande/JsonApiResponse.cs` |
| `OrderEndpoints` | endpoints.dfy | `APICommande/EndPoints.cs` |

Model choices:

- `ObjectId.GenerateNewId()` is not deterministic. It becomes a parameter `newId` of `ToOrder`, used only when the identifier text does not parse.
- `GetAllOrders` receives the list that the store's `GetOrdersAsync` returned, which is what the unit test mocks. `Lists(orders, store)` states when that list enumerates a store.
- On insert, the document-store driver replaces an `_id` equal to `ObjectId.Empty` (all twelve bytes zero) with a generated identifier. It writes that identifier back into the inserted object, so the handler's reply names it. `AssignIdOnInsert` models that step. `CreateOrder` inserts `Inserted(dto, newId)`, the converted body after that step. The generator never yields `ObjectId.Empty`, so one parameter `newId` serves both `GenerateNewId` in `ToOrder` and the driver.
- The unique index on `_id` makes `InsertOneAsync` throw when the identifier is already stored. `CreateOrder` does not catch that exception, so the model answers `ServerError`, leaves the store unchanged and sends no notification.
- The outcome of the request/reply call is the parameter `rpc`. `CreateOrder` ignores it, as the handler does once it has logged the outcome.
- `UpdateOrder` overwrites the identifier that `ToOrder` chose with the path id. The generated identifier is therefore irrelevant, and the model passes the path id as the fallback.

## Model

| member | source | states |
|---|---|---|
| ObjectIds.ToString | APICommande/Models/OrderDto.cs:17 | the identifier text is always 24 lower-case hex digits |
| ObjectIds.TryParse | APICommande/EndPoints.cs:42 | parsing succeeds exactly when the text is 24 hex digits of either case |
| ObjectIds.ParseToString | APICommande/Models/OrderDto.cs:35 | parsing the rendered text of an identifier gives back that identifier |
| ObjectIds.ToStringOfParse | APICommande/Models/OrderDto.cs:35 | rendering a parsed identifier gives the lower-case form of the parsed text |
| ObjectIds.CanonicalIffReproduced | APICommande/Models/OrderDto.cs:35 | text is reproduced by parse-then-render iff it is 24 lower-case hex digits |
| ObjectIds.ToStringInjective | APICommande/Models/OrderDto.cs:17 | distinct identifiers never share a text form |
| Int64Text.Print | APICommande/Models/OrderDto.cs:19 | printed text is never empty and starts with `-` exactly when the value is negative; ParsePrint and PrintIsCanonical state the rest |
| Int64Text.Parse | APICommande/Models/OrderDto.cs:37 | text that parses holds a digit; ParseAt and ParseHasShape characterise success in both directions |
| Int64Text.ParsePrint | APICommande/Models/OrderDto.cs:37 | for every 64-bit value, printing it in decimal and parsing the text gives back the value |
| Int64Text.PrintIsCanonical | APICommande/Models/OrderDto.cs:19 | printed timestamps carry no padding, no `+`, no leading zero and stay in range |
| Int64Text.CanonicalIffReproduced | APICommande/Models/OrderDto.cs:37 | text is reproduced by parse-then-print iff it is canonical decimal text of a 64-bit value |
| Int64Text.ParseAt | APICommande/Models/OrderDto.cs:37 | text of the form white space, optional sign, digits, white space, NULs parses to the signed digit value when it fits in 64 bits and fails otherwise |
| Int64Text.ParseHasShape | APICommande/Models/OrderDto.cs:37 | the converse of ParseAt: text that parses has the parts white space, optional sign, digits, white space, NULs, and its value is the signed value of its digit run |
| Int64Text.ParseSignedDigits | APICommande/Models/OrderDto.cs:37 | the decimal digits of a number, after a `-` for a negative one, parse to the signed number when it fits in 64 bits |
| Int64Text.ParseRejectsTextAfterDigits | APICommande/Models/OrderDto.cs:37 | for every text: a digit, followed later by a character that is neither white space nor NUL and is not reached by a run of digits from that digit, makes the parse fail (so "1 2" and "1-" fail) |
| Int64Text.ParseRejectsSecondSign | APICommande/Models/OrderDto.cs:37 | for every text: two signs in a row after the leading white space make the parse fail (so "+-1" and "--5" fail) |
| Int64Text.ParsedTextIsNumeric | APICommande/Models/OrderDto.cs:37 | parseable text contains a digit and only digits, signs, white space and NULs |
| Int64Text.ParseNeedsDigit | APICommande/Models/OrderDto.cs:37 | text without a digit, the empty text included, does not parse |
| Int64Text.ParseRejectsForeignChar | APICommande/Models/OrderDto.cs:37 | text holding any character that cannot belong to a number does not parse |
| Int64Text.ParseOverflowFails | APICommande/Models/OrderDto.cs:37 | a digit run whose value lies outside the signed 64-bit range does not parse |
| Orders.ProductsToDto | APICommande/Models/OrderDto.cs:22-27 | the product lines are copied position by position: same length, same order, same IdProduct, Name and Quantity |
| Orders.ProductsFromDto | APICommande/Models/OrderDto.cs:40-45 | the product lines are copied back position by position: same length, order and fields |
| Orders.FromOrder | APICommande/Models/OrderDto.cs:13-29 | IdUser, Status and Address are copied unchanged, the identifier text is canonical, and the products correspond line by line |
| Orders.ToOrder | APICommande/Models/OrderDto.cs:31-46 | an identifier that parses is kept, otherwise the generated one is used; a timestamp that parses is kept, otherwise it is 0; the other fields and the product lines are copied |
| Orders.FromOrderTextIsCanonical | APICommande/Models/OrderDto.cs:17-19 | the identifier and timestamp texts are canonical and parse back to the order's values |
| Orders.ToOrderFromOrder | APICommande/Models/OrderDto.cs:13-47 | converting an order to its transfer object and back restores the order field by field |
| Orders.FromOrderToOrderIdentityIff | APICommande/Models/OrderDto.cs:13-47 | a transfer object survives ToOrder then FromOrder unchanged iff its identifier and timestamp texts are canonical |
| Orders.NormalisationIsIdempotent | APICommande/Models/OrderDto.cs:13-47 | after one ToOrder/FromOrder round, another round changes nothing, whatever identifiers are generated |
| LegacyOrders.FromOrder | APICommande/OrderDto.cs:11-20 | IdUser, Timestamp, Status and Products are copied, and the identifier becomes canonical text that parses back to it |
| LegacyOrders.ToOrder | APICommande/OrderDto.cs:22-32 | an identifier that parses is kept, otherwise the generated one is used; IdUser, Timestamp, Status and Products are copied |
| LegacyOrders.ToOrderFromOrder | APICommande/OrderDto.cs:11-32 | converting a legacy order to its transfer object and back restores it |
| LegacyOrders.FromOrderToOrderIdentityIff | APICommande/OrderDto.cs:14-26 | a legacy transfer object survives the round trip iff its identifier is 24 lower-case hex digits |
| OrderEndpoints.ListEntries | APICommande/EndPoints.cs:22-33 | one entry per listed order, in order, each of type "order", named by its own attributes' id, with the order's transfer object as attributes |
| OrderEndpoints.GetAllOrders | APICommande/EndPoints.cs:17-37 | the list reply is `Ok` with one entry per order in listing order, and each entry id parses back to its order's identifier |
| OrderEndpoints.GetAllOrdersOnePerStoredOrder | APICommande/EndPoints.cs:21-35 | listing a whole store yields exactly as many entries as stored orders, no id twice, and every stored order under its own id |
| OrderEndpoints.GetAllOrdersEntriesDecode | APICommande/EndPoints.cs:25-31 | every list entry converts back to the order it was made from |
| OrderEndpoints.GetOrderById | APICommande/EndPoints.cs:39-61 | BadRequest iff the id does not parse; NotFound iff it parses to an absent key; otherwise Ok wrapping that order's transfer object with type "order" |
| OrderEndpoints.GetOrderByIdLooksUpOwnId | APICommande/EndPoints.cs:45-60 | in a consistent store, NotFound iff no stored order has the id; an Ok reply is named by the lower-cased requested id and converts back to the stored order |
| OrderEndpoints.AssignIdOnInsert | APICommande/EndPoints.cs:67 | the inserted order keeps its content; its identifier is kept unless it is empty, and an empty one becomes the generated identifier |
| OrderEndpoints.CreateOrder | APICommande/EndPoints.cs:63-105 | Created iff the identifier the order is inserted under (the converted id, or the generated one in place of an empty id) is new; then that order alone is added, the reply sits at "/api/v1/orders/{id}" and names it, and it is the notification's order id; otherwise ServerError, nothing changes and nothing is sent; consistency is kept |
| OrderEndpoints.CreateInsertsOne | APICommande/EndPoints.cs:66-67 | a successful creation grows the store by exactly one order |
| OrderEndpoints.GetAfterCreate | APICommande/EndPoints.cs:97-103 | fetching the location a creation names returns the created resource |
| OrderEndpoints.CreateIgnoresNotification | APICommande/EndPoints.cs:81-95 | the reply and the store do not depend on whether the notification call replied, found no broker or failed |
| OrderEndpoints.CreateDuplicateFails | APICommande/EndPoints.cs:66-67 | posting a body whose id is already stored, and not the empty id, fails and leaves the store as it was |
| OrderEndpoints.CreateEmptyIdUsesGenerated | APICommande/EndPoints.cs:66-67 | a body naming the empty id is created under the generated id: Created iff that id is free, even when the empty id is stored, and the location names the generated id |
| OrderEndpoints.CreateNeverStoresEmptyId | APICommande/EndPoints.cs:66-67 | with a generator that never yields the empty id, creation never adds an order under the empty id |
| ObjectIds.IsEmptyIff | APICommande/EndPoints.cs:67 | an identifier is all-zero exactly when it is `ObjectId.Empty` |
| OrderEndpoints.UpdateOrder | APICommande/EndPoints.cs:107-124 | BadRequest and no change iff the path id does not parse; otherwise Ok echoing the body under the body's id, the order under the path id replaced by the body's content keyed to the path id, nothing else changed, no key added |
| OrderEndpoints.UpdateWithoutMatchStoresNothing | APICommande/EndPoints.cs:115-123 | an update whose path id matches nothing still answers Ok and stores nothing |
| OrderEndpoints.UpdateReplyNamesBodyId | APICommande/EndPoints.cs:117-122 | for every body and every path id that parses, the update reply carries the body's id, while a stored order under the path id keeps the path id |
| OrderEndpoints.GetAfterUpdate | APICommande/EndPoints.cs:113-115 | fetching after an update returns the body converted, re-keyed to the path id and normalised |
| OrderEndpoints.DeleteOrder | APICommande/EndPoints.cs:126-138 | BadRequest and no change iff the id does not parse; NoContent iff an order had that id, NotFound iff none had; afterwards the key is gone and every other entry is unchanged |
| OrderEndpoints.DeleteThenNotFound | APICommande/EndPoints.cs:132-137 | after a deletion, fetching or deleting the same id answers NotFound |
| OrderEndpoints.DeleteRemovesAllWithId | APICommande/EndPoints.cs:132-133 | in a consistent store, no order left after a deletion has the deleted id |

## Left out

- OrderEndpoints.CreateOrder: assumes the request/reply call completes, by returning a reply or by throwing. `CallRpcAsync` (APICommande/EndPoints.cs:84) is awaited with no timeout or cancellation. If it never completes, the real handler never answers even though the order is already stored. `RpcResult` has no outcome for that.
- The request/reply client that `CreateOrder` calls is not part of this model. Its definition is not among the sources, and it depends on concurrency. Its outcome is an ignored parameter, and the message handed to it is recorded as `sent`.
- JSON serialisation of that message and of the replies is left out. The model keeps the structured values.
- `RabbitMqPublisher.cs` and `RabbitMQBackgroundService.cs` are left out. They do broker I/O, a library retry policy with floating-point backoff, and callback consumers.
- `Program.cs` is left out: bootstrap, routing and raw HTTP calls. It also holds an older set of order handlers, which differ from the modelled endpoints as follows:
  - They work on the legacy `Order`/`OrderDto` types.
  - They return bare transfer objects without the JSON:API envelope.
  - `CreateOrder` answers Created at `/orders/{id}` and sends no notification.
  - `UpdateOrder` answers NoContent only when something was modified, and NotFound otherwise.
  - An extra `GetCompletedOrders` returns the stored orders whose status is "completed", unconverted.
- The MongoDB service classes are replaced by the map store. The only collection behaviour modelled is the one the handlers rely on: lookup by `_id`, insert with a unique `_id`, replace without upsert, and delete of one document.
- Metrics, logging and tracing are left out. This includes `ActiveOrders.Add(-1)` in `DeleteOrder`, which runs even when nothing was deleted.
- `TestEndPoints.cs` is left out. It is fault-injection scaffolding.
- async/await is left out. Each handler is one sequential step.
- Null strings in a request body are not modelled. Every text field is a value, the empty text included.
- A null `Products` list and a null product line in a request body are not modelled. `Products.Select` throws on a null list (APICommande/Models/OrderDto.cs:40). The `p.IdProduct` access throws on a null line (:42). Either makes `CreateOrder` and `UpdateOrder` answer 500 before touching the store. The model's lists are values and their lines are records, so neither can be null.
- The legacy `FromOrder` and `ToOrder` share the product list with their argument, since the `List<int>` is not copied. Values cannot alias, so the model copies it.
- Int64Text.Print: writes the negative sign as `-`. `long.ToString()` writes the current culture's negative sign (APICommande/Models/OrderDto.cs:19), which may be other text. A culture whose negative sign is not `-` is not modelled.
- Int64Text.Parse: fixes the culture's signs to `-` and `+`, as in the invariant culture. A culture with other sign text is not modelled.
- `JsonApiData.Attributes` is nullable in the source. The handlers always set it, so the model does not make it optional.

=== FILE: endpoints.dfy ===
/**
 * The HTTP handlers for orders, each a single sequential step over an
 * abstract document store: a finite map from identifier to order. The store
 * is returned alongside the HTTP result so that what a handler changes is
 * visible.
 */
module OrderEndpoints {
  import opened Wrappers
  import ObjectIds
  import opened Orders
  import opened JsonApi

  /** The `orders` collection, keyed by the `_id` field. */
  type Store = map<ObjectId, Order>

  const OrderType := "order"
  const InvalidIdMessage := "Invalid ObjectId format."
  const OrdersPath := "/api/v1/orders/"

  /** Every stored order sits under its own identifier. */
  predicate Consistent(store: Store) {
    forall k :: k in store ==> store[k].id == k
  }

  /** The body of the list endpoint, `{ "data": [...] }`. */
  datatype ListBody = ListBody(data: seq<JsonApiData<OrderDto>>)

  datatype Response =
    | OkList(list: ListBody)
    | Ok(doc: JsonApiResponse<OrderDto>)
    | Created(location: string, doc: JsonApiResponse<OrderDto>)
    | BadRequest(message: string)
    | NotFound
    | NoContent
      /** An exception the handler does not catch. */
    | ServerError

  datatype Outcome = Outcome(response: Response, store: Store)

  /** What the request/reply client is handed when an order is created. */
  datatype OrderMessage = OrderMessage(orderId: string, products: seq<ProductDto>)

  /** How the call to the request/reply client ended; the handler ignores it. */
  datatype RpcResult = Replied(payload: string) | BrokerUnreachable | SendFailed

  datatype CreateOutcome = CreateOutcome(response: Response, store: Store, sent: Option<OrderMessage>)

  /** The resource object for a transfer object, named by the transfer object's own id. */
  function Resource(dto: OrderDto): (r: JsonApiData<OrderDto>) {
    JsonApiData(OrderType, dto.id, dto)
  }

  /** The `Select` of the list endpoint. */
  function ListEntries(orders: seq<Order>): (entries: seq<JsonApiData<OrderDto>>)
    ensures |entries| == |orders|
    ensures forall i :: 0 <= i < |orders| ==>
      && entries[i].resourceType == OrderType
      && entries[i].id == entries[i].attributes.id
      && entries[i].attributes == FromOrder(orders[i])
  {
    if orders == [] then [] else [Resource(FromOrder(orders[0]))] + ListEntries(orders[1..])
  }

  /** `GET /orders`: `orders` is what the store's listing returned. */
  function GetAllOrders(orders: seq<Order>): (r: Response)
    ensures r.OkList? && |r.list.data| == |orders|
    ensures forall i :: 0 <= i < |orders| ==>
      && r.list.data[i].resourceType == OrderType
      && r.list.data[i].id == r.list.data[i].attributes.id
      && r.list.data[i].attributes == FromOrder(orders[i])
      && ObjectIds.TryParse(r.list.data[i].id) == Some(orders[i].id)
  {
    var entries := ListEntries(orders);
    forall i | 0 <= i < |orders| ensures ObjectIds.TryParse(entries[i].id) == Some(orders[i].id) {
      ObjectIds.ParseToString(orders[i].id);
    }
    OkList(ListBody(entries))
  }

  /** `GET /orders/{id}`. */
  function GetOrderById(store: Store, id: string): (r: Response)
    ensures ObjectIds.TryParse(id).None? <==> r == BadRequest(InvalidIdMessage)
    ensures r.NotFound? <==> ObjectIds.TryParse(id).Some? && ObjectIds.TryParse(id).value !in store
    ensures r.Ok? <==> ObjectIds.TryParse(id).Some? && ObjectIds.TryParse(id).value in store
    ensures r.Ok? ==>
      && r.doc.data.resourceType == OrderType
      && r.doc.data.attributes == FromOrder(store[ObjectIds.TryParse(id).value])
      && r.doc.data.id == r.doc.data.attributes.id
  {
    match ObjectIds.TryParse(id)
    case None => BadRequest(InvalidIdMessage)
    case Some(k) =>
      if k !in store then NotFound
      else Ok(JsonApiResponse(Resource(FromOrder(store[k]))))
  }

  /**
   * The driver's identifier assignment on insert: a document whose `_id` is
   * the empty identifier is given a generated one before it is sent, and the
   * caller's object sees the change. Any other identifier is kept.
   */
  function AssignIdOnInsert(o: Order, generated: ObjectId): (r: Order)
    ensures SameContent(r, o)
    ensures !ObjectIds.IsEmpty(o.id) ==> r.id == o.id
    ensures ObjectIds.IsEmpty(o.id) ==> r.id == generated
  {
    if ObjectIds.IsEmpty(o.id) then o.(id := generated) else o
  }

  /** The order `CreateOrder` inserts: the body converted, its identifier assigned. */
  function Inserted(dto: OrderDto, newId: ObjectId): (o: Order) {
    AssignIdOnInsert(ToOrder(dto, newId), newId)
  }

  /**
   * `POST /orders`. The body is converted with `ToOrder` and the driver then
   * replaces an empty identifier by a generated one; the order is inserted
   * under the resulting identifier, and inserting one already present fails
   * with an uncaught duplicate-key error. After a successful insert the
   * request/reply client is called and whatever it does, `rpc`, is logged
   * and otherwise ignored. One generated identifier `newId` serves both
   * `GenerateNewId` in `ToOrder` and the driver's assignment, which never
   * both apply to the same body unless `newId` is itself empty.
   */
  function CreateOrder(store: Store, dto: OrderDto, newId: ObjectId, rpc: RpcResult): (r: CreateOutcome)
    ensures r.response.Created? <==> Inserted(dto, newId).id !in store
    ensures r.response.Created? ==>
      var o := Inserted(dto, newId);
      && r.store.Keys == store.Keys + {o.id}
      && r.store[o.id] == o
      && (forall k :: k in store ==> r.store[k] == store[k])
    ensures r.response.Created? ==>
      var o := Inserted(dto, newId);
      && r.response.location == OrdersPath + ObjectIds.ToString(o.id)
      && r.response.doc.data == Resource(FromOrder(o))
      && r.sent == Some(OrderMessage(ObjectIds.ToString(o.id), FromOrder(o).products))
    ensures !r.response.Created? ==> r.response == ServerError && r.store == store && r.sent == None
    ensures Consistent(store) ==> Consistent(r.store)
  {
    var order := Inserted(dto, newId);
    if order.id in store then
      CreateOutcome(ServerError, store, None)
    else
      var created := FromOrder(order);
      var message := OrderMessage(created.id, created.products);
      var stored := store[order.id := order];
      InsertKeepsConsistent(store, order);
      CreateOutcome(
        Created(OrdersPath + created.id, JsonApiResponse(Resource(created))),
        stored,
        Some(message))
  }

  /** Storing an order under its own identifier keeps the store consistent. */
  lemma InsertKeepsConsistent(store: Store, o: Order)
    ensures Consistent(store) ==> Consistent(store[o.id := o])
  {
  }

  /** Two orders agree on everything but their identifier. */
  predicate SameContent(a: Order, b: Order) {
    && a.idUser == b.idUser && a.timestamp == b.timestamp && a.status == b.status
    && a.address == b.address && a.products == b.products
  }

  /**
   * `PUT /orders/{id}`: replaces the order stored under the path id, if any,
   * with the body converted to an order and re-keyed to the path id. The
   * reply is `Ok` and echoes the body, whether or not anything was replaced.
   */
  function UpdateOrder(store: Store, id: string, dto: OrderDto): (r: Outcome)
    ensures ObjectIds.TryParse(id).None? <==> r.response == BadRequest(InvalidIdMessage)
    ensures ObjectIds.TryParse(id).None? ==> r.store == store
    ensures ObjectIds.TryParse(id).Some? ==> r.response == Ok(JsonApiResponse(JsonApiData(OrderType, dto.id, dto)))
    ensures r.store.Keys == store.Keys
    ensures forall k :: k in store && Some(k) != ObjectIds.TryParse(id) ==> r.store[k] == store[k]
    ensures forall k, n: ObjectId :: k in store && Some(k) == ObjectIds.TryParse(id) ==>
      r.store[k].id == k && SameContent(r.store[k], ToOrder(dto, n))
    ensures Consistent(store) ==> Consistent(r.store)
  {
    match ObjectIds.TryParse(id)
    case None => Outcome(BadRequest(InvalidIdMessage), store)
    case Some(k) =>
      var order := ToOrder(dto, k).(id := k);
      var replaced := if k in store then store[k := order] else store;
      Outcome(Ok(JsonApiResponse(Resource(dto))), replaced)
  }

  /** `DELETE /orders/{id}`. */
  function DeleteOrder(store: Store, id: string): (r: Outcome)
    ensures ObjectIds.TryParse(id).None? <==> r.response == BadRequest(InvalidIdMessage)
    ensures ObjectIds.TryParse(id).None? ==> r.store == store
    ensures r.response.NoContent? <==> ObjectIds.TryParse(id).Some? && ObjectIds.TryParse(id).value in store
    ensures r.response.NotFound? <==> ObjectIds.TryParse(id).Some? && ObjectIds.TryParse(id).value !in store
    ensures forall k :: k in r.store <==> k in store && Some(k) != ObjectIds.TryParse(id)
    ensures forall k :: k in r.store ==> r.store[k] == store[k]
  {
    match ObjectIds.TryParse(id)
    case None => Outcome(BadRequest(InvalidIdMessage), store)
    case Some(k) =>
      if k in store then Outcome(NoContent, store - {k}) else Outcome(NotFound, store)
  }

  /** The identifiers of a list of orders. */
  function IdsOf(orders: seq<Order>): (ids: set<ObjectId>)
    ensures forall k :: k in ids <==> exists i :: 0 <= i < |orders| && orders[i].id == k
  {
    if orders == [] then {}
    else
      var rest := IdsOf(orders[1..]);
      assert forall k :: k in rest ==> exists i :: 0 <= i < |orders| && orders[i].id == k by {
        forall k | k in rest ensures exists i :: 0 <= i < |orders| && orders[i].id == k {
          var j :| 0 <= j < |orders[1..]| && orders[1..][j].id == k;
          assert orders[j + 1].id == k;
        }
      }
      {orders[0].id} + rest
  }

  predicate DistinctIds(orders: seq<Order>) {
    forall i, j :: 0 <= i < j < |orders| ==> orders[i].id != orders[j].id
  }

  lemma {:induction false} DistinctIdsCount(orders: seq<Order>)
    requires DistinctIds(orders)
    ensures |IdsOf(orders)| == |orders|
    decreases |orders|
  {
    if orders != [] {
      var rest := orders[1..];
      assert DistinctIds(rest) by {
        forall i, j | 0 <= i < j < |rest| ensures rest[i].id != rest[j].id {
          assert rest[i] == orders[i + 1] && rest[j] == orders[j + 1];
        }
      }
      DistinctIdsCount(rest);
      forall j | 0 <= j < |rest| ensures rest[j].id != orders[0].id {
        assert rest[j] == orders[j + 1];
      }
      assert orders[0].id !in IdsOf(rest);
    }
  }

  /** `orders` is a listing of the store: each stored order exactly once. */
  predicate Lists(orders: seq<Order>, store: Store) {
    && (forall i :: 0 <= i < |orders| ==> orders[i].id in store && store[orders[i].id] == orders[i])
    && DistinctIds(orders)
    && (forall k :: k in store ==> exists i :: 0 <= i < |orders| && orders[i].id == k)
  }

  /**
   * Listing the whole store yields one entry per stored order: as many entries
   * as orders, no identifier twice, and every stored order present under its
   * own identifier text.
   */
  lemma GetAllOrdersOnePerStoredOrder(store: Store, orders: seq<Order>)
    requires Lists(orders, store)
    ensures var data := GetAllOrders(orders).list.data;
      && |data| == |store|
      && (forall i, j :: 0 <= i < j < |data| ==> data[i].id != data[j].id)
      && (forall k :: k in store ==>
            exists i :: 0 <= i < |data| && data[i].id == ObjectIds.ToString(k) && data[i].attributes == FromOrder(store[k]))
  {
    ListingSize(store, orders);
    ListedIdsDistinct(orders);
    ListingCovers(store, orders);
  }

  lemma ListingSize(store: Store, orders: seq<Order>)
    requires Lists(orders, store)
    ensures |orders| == |store|
  {
    DistinctIdsCount(orders);
    assert IdsOf(orders) == store.Keys;
  }

  lemma ListedIdsDistinct(orders: seq<Order>)
    requires DistinctIds(orders)
    ensures var data := GetAllOrders(orders).list.data;
      forall i, j :: 0 <= i < j < |data| ==> data[i].id != data[j].id
  {
    var data := GetAllOrders(orders).list.data;
    forall i, j | 0 <= i < j < |data| ensures data[i].id != data[j].id {
      assert data[i].id == ObjectIds.ToString(orders[i].id);
      assert data[j].id == ObjectIds.ToString(orders[j].id);
      if data[i].id == data[j].id {
        ObjectIds.ToStringInjective(orders[i].id, orders[j].id);
      }
    }
  }

  lemma ListingCovers(store: Store, orders: seq<Order>)
    requires Lists(orders, store)
    ensures var data := GetAllOrders(orders).list.data;
      forall k :: k in store ==>
        exists i :: 0 <= i < |data| && data[i].id == ObjectIds.ToString(k) && data[i].attributes == FromOrder(store[k])
  {
    var data := GetAllOrders(orders).list.data;
    forall k | k in store
      ensures exists i :: 0 <= i < |data| && data[i].id == ObjectIds.ToString(k) && data[i].attributes == FromOrder(store[k])
    {
      var i :| 0 <= i < |orders| && orders[i].id == k;
      assert data[i].id == ObjectIds.ToString(k);
    }
  }

  /** Every listed entry converts back to the order it was listed from. */
  lemma GetAllOrdersEntriesDecode(orders: seq<Order>, i: nat, newId: ObjectId)
    requires i < |orders|
    ensures var e := GetAllOrders(orders).list.data[i];
      ToOrder(e.attributes, newId) == orders[i] && e.id == ObjectIds.ToString(orders[i].id)
  {
    ToOrderFromOrder(orders[i], newId);
  }

  /**
   * In a consistent store, lookup is by the orders' own identifiers: `NotFound`
   * iff no stored order has the requested identifier; an `Ok` reply names the
   * resource by the lower-case form of the requested text and converts back to
   * the stored order.
   */
  lemma GetOrderByIdLooksUpOwnId(store: Store, id: string, newId: ObjectId)
    requires Consistent(store)
    requires ObjectIds.TryParse(id).Some?
    ensures var k := ObjectIds.TryParse(id).value;
      var r := GetOrderById(store, id);
      && (r.NotFound? <==> forall o :: o in store.Values ==> o.id != k)
      && (r.Ok? ==>
            && r.doc.data.id == ObjectIds.ToLowerHex(id)
            && ToOrder(r.doc.data.attributes, newId) == store[k]
            && ToOrder(r.doc.data.attributes, newId).id == k)
  {
    var k := ObjectIds.TryParse(id).value;
    if k in store {
      assert store[k] in store.Values;
      ObjectIds.ToStringOfParse(id);
      ToOrderFromOrder(store[k], newId);
    }
  }

  /** A created order can be fetched at the location the reply names. */
  lemma GetAfterCreate(store: Store, dto: OrderDto, newId: ObjectId, rpc: RpcResult)
    requires CreateOrder(store, dto, newId, rpc).response.Created?
    ensures var c := CreateOrder(store, dto, newId, rpc);
      var path := c.response.location[|OrdersPath|..];
      GetOrderById(c.store, path) == Ok(c.response.doc)
  {
    var c := CreateOrder(store, dto, newId, rpc);
    var o := Inserted(dto, newId);
    assert c.response.location[|OrdersPath|..] == ObjectIds.ToString(o.id);
    ObjectIds.ParseToString(o.id);
  }

  /** A successful creation adds exactly one order to the store. */
  lemma CreateInsertsOne(store: Store, dto: OrderDto, newId: ObjectId, rpc: RpcResult)
    requires CreateOrder(store, dto, newId, rpc).response.Created?
    ensures |CreateOrder(store, dto, newId, rpc).store| == |store| + 1
  {
    var s := CreateOrder(store, dto, newId, rpc).store;
    var k := Inserted(dto, newId).id;
    assert s.Keys == store.Keys + {k} && k !in store.Keys;
    assert |s.Keys| == |store.Keys| + 1;
  }

  /** The reply to a creation does not depend on how the notification call ended. */
  lemma CreateIgnoresNotification(store: Store, dto: OrderDto, newId: ObjectId, rpc1: RpcResult, rpc2: RpcResult)
    ensures CreateOrder(store, dto, newId, rpc1) == CreateOrder(store, dto, newId, rpc2)
  {
  }

  /**
   * Creation fails, changing nothing, when the body names a stored identifier
   * other than the empty one.
   */
  lemma CreateDuplicateFails(store: Store, dto: OrderDto, newId: ObjectId, rpc: RpcResult)
    requires ObjectIds.TryParse(dto.id).Some? && ObjectIds.TryParse(dto.id).value in store
    requires ObjectIds.TryParse(dto.id).value != ObjectIds.Empty
    ensures CreateOrder(store, dto, newId, rpc) == CreateOutcome(ServerError, store, None)
  {
    ObjectIds.IsEmptyIff(ObjectIds.TryParse(dto.id).value);
  }

  /**
   * A body naming the empty identifier is created under the generated one:
   * it succeeds iff that identifier is free, even when the empty identifier
   * is itself stored, and the reply's location names the generated identifier.
   */
  lemma CreateEmptyIdUsesGenerated(store: Store, dto: OrderDto, newId: ObjectId, rpc: RpcResult)
    requires ObjectIds.TryParse(dto.id).Some? && ObjectIds.IsEmpty(ObjectIds.TryParse(dto.id).value)
    ensures var r := CreateOrder(store, dto, newId, rpc);
      && (r.response.Created? <==> newId !in store)
      && (r.response.Created? ==> r.response.location == OrdersPath + ObjectIds.ToString(newId) && r.store[newId].id == newId)
  {
  }

  /**
   * While the generator never yields the empty identifier, creation never
   * adds an order under it.
   */
  lemma CreateNeverStoresEmptyId(store: Store, dto: OrderDto, newId: ObjectId, rpc: RpcResult)
    requires newId != ObjectIds.Empty
    ensures ObjectIds.Empty in CreateOrder(store, dto, newId, rpc).store <==> ObjectIds.Empty in store
  {
    var o := ToOrder(dto, newId);
    ObjectIds.IsEmptyIff(o.id);
    ObjectIds.IsEmptyIff(Inserted(dto, newId).id);
  }

  /** After a deletion the order is gone: deleting again or fetching gives `NotFound`. */
  lemma DeleteThenNotFound(store: Store, id: string)
    requires ObjectIds.TryParse(id).Some?
    ensures var s := DeleteOrder(store, id).store;
      && GetOrderById(s, id) == NotFound
      && DeleteOrder(s, id) == Outcome(NotFound, s)
  {
  }

  /** In a consistent store, no order left after a deletion carries the deleted identifier. */
  lemma DeleteRemovesAllWithId(store: Store, id: string)
    requires Consistent(store)
    requires ObjectIds.TryParse(id).Some?
    ensures forall o :: o in DeleteOrder(store, id).store.Values ==> o.id != ObjectIds.TryParse(id).value
  {
    var s := DeleteOrder(store, id).store;
    forall o | o in s.Values ensures o.id != ObjectIds.TryParse(id).value {
      var k :| k in s && s[k] == o;
    }
  }

  /** An update whose path id matches no order is acknowledged but stores nothing. */
  lemma UpdateWithoutMatchStoresNothing(store: Store, id: string, dto: OrderDto)
    requires ObjectIds.TryParse(id).Some? && ObjectIds.TryParse(id).value !in store
    ensures UpdateOrder(store, id, dto).response.Ok?
    ensures UpdateOrder(store, id, dto).store == store
  {
  }

  /**
   * The update reply names the resource by the body's identifier, whatever it
   * is, while the stored order is keyed by the path id: a body with an empty
   * or a different identifier yields a reply that does not name the stored order.
   */
  lemma UpdateReplyNamesBodyId(store: Store, id: string, dto: OrderDto)
    requires ObjectIds.TryParse(id).Some?
    ensures var r := UpdateOrder(store, id, dto);
      var k := ObjectIds.TryParse(id).value;
      && r.response.doc.data.id == dto.id
      && (k in store ==> r.store[k].id == k)
  {
  }

  /** After an update, fetching by the path id returns the body as stored, normalised. */
  lemma GetAfterUpdate(store: Store, id: string, dto: OrderDto)
    requires ObjectIds.TryParse(id).Some? && ObjectIds.TryParse(id).value in store
    ensures var k := ObjectIds.TryParse(id).value;
      var s := UpdateOrder(store, id, dto).store;
      GetOrderById(s, id) == Ok(JsonApiResponse(Resource(FromOrder(ToOrder(dto, k).(id := k)))))
  {
  }
}

=== FILE: int64_text.dfy ===
/**
 * Decimal text of signed 64-bit integers, as produced by `long.ToString()` and
 * read back by `long.TryParse(s, out v)` (integer number style, invariant
 * culture): optional leading white space, an optional `+` or `-`, one or more
 * ASCII digits, optional trailing white space, then optional trailing NUL
 * characters. A value outside the 64-bit range makes the parse fail.
 */
module Int64Text {
  import opened Wrappers

  const MinInt64 := -0x8000_0000_0000_0000
  const MaxInt64 := 0x7fff_ffff_ffff_ffff

  type Int64 = v: int | MinInt64 <= v <= MaxInt64

  predicate IsDigit(c: char) { '0' <= c <= '9' }

  /** The white space the number parser skips: space and U+0009 to U+000D. */
  predicate IsWhite(c: char) { c == ' ' || '\t' <= c <= '\r' }

  predicate IsSign(c: char) { c == '+' || c == '-' }

  predicate IsNul(c: char) { c == '\0' }

  /** Characters that may appear anywhere in parseable text. */
  predicate IsNumberChar(c: char) { IsDigit(c) || IsWhite(c) || IsSign(c) || IsNul(c) }

  predicate AllDigits(s: string) { forall i :: 0 <= i < |s| ==> IsDigit(s[i]) }
  predicate AllWhite(s: string) { forall i :: 0 <= i < |s| ==> IsWhite(s[i]) }
  predicate AllNul(s: string) { forall i :: 0 <= i < |s| ==> IsNul(s[i]) }

  function DigitValue(c: char): (d: nat)
    requires IsDigit(c)
    ensures d < 10
  {
    c as int - '0' as int
  }

  function DigitChar(d: nat): (c: char)
    requires d < 10
    ensures IsDigit(c) && DigitValue(c) == d
  {
    ('0' as int + d) as char
  }

  /** Value of a string of decimal digits, most significant first. */
  function DigitsValue(s: string): (n: nat)
    requires AllDigits(s)
    decreases |s|
  {
    if s == [] then 0 else 10 * DigitsValue(s[..|s| - 1]) + DigitValue(s[|s| - 1])
  }

  /** Shortest decimal digits of a natural number (no leading zero). */
  function NatDigits(n: nat): (s: string)
    ensures |s| >= 1 && AllDigits(s)
    ensures s[0] == '0' ==> n == 0 && |s| == 1
    decreases n
  {
    if n < 10 then [DigitChar(n)] else NatDigits(n / 10) + [DigitChar(n % 10)]
  }

  /** `long.ToString()`. */
  function Print(v: Int64): (s: string)
    ensures |s| >= 1
    ensures s[0] == '-' <==> v < 0
  {
    if v < 0 then "-" + NatDigits(-(v as int)) else NatDigits(v)
  }

  /** The text forms `Print` produces: no sign but `-`, no padding, no leading zero, in range. */
  predicate IsCanonical(s: string) {
    || (|s| >= 1 && AllDigits(s) && (s[0] == '0' ==> |s| == 1) && DigitsValue(s) <= MaxInt64)
    || (|s| >= 2 && s[0] == '-' && AllDigits(s[1..]) && s[1] != '0' && DigitsValue(s[1..]) <= -MinInt64)
  }

  /** End of the longest run of characters satisfying `p` that starts at `i`. */
  function Span(s: string, i: nat, p: char -> bool): (j: nat)
    requires i <= |s|
    ensures i <= j <= |s|
    ensures forall k :: i <= k < j ==> p(s[k])
    ensures j == |s| || !p(s[j])
    decreases |s| - i
  {
    if i == |s| || !p(s[i]) then i else Span(s, i + 1, p)
  }

  /** The signed value of `magnitude`, if it fits in 64 bits. */
  function Fit(negative: bool, magnitude: nat): (r: Option<Int64>)
    ensures r.Some? <==> (if negative then magnitude <= -MinInt64 else magnitude <= MaxInt64)
    ensures r.Some? ==> r.value == (if negative then -(magnitude as int) else magnitude)
  {
    var v := if negative then -(magnitude as int) else magnitude;
    if MinInt64 <= v <= MaxInt64 then Some(v) else None
  }

  /** `long.TryParse(s, out v)`: the `Some` case is the `true` return. */
  function Parse(s: string): (r: Option<Int64>)
    ensures r.Some? ==> exists k :: 0 <= k < |s| && IsDigit(s[k])
  {
    var a := Span(s, 0, IsWhite);
    var negative := a < |s| && s[a] == '-';
    var b := if a < |s| && IsSign(s[a]) then a + 1 else a;
    var c := Span(s, b, IsDigit);
    var d := Span(s, c, IsWhite);
    if c == b || !NulFrom(s, d) then None
    else
      Fit(negative, DigitsValue(s[b..c]))
  }

  /** Parseable text holds at least one digit and nothing but number characters. */
  lemma ParsedTextIsNumeric(s: string)
    requires Parse(s).Some?
    ensures forall k :: 0 <= k < |s| ==> IsNumberChar(s[k])
    ensures exists k :: 0 <= k < |s| && IsDigit(s[k])
  {
    var a := Span(s, 0, IsWhite);
    var b := if a < |s| && IsSign(s[a]) then a + 1 else a;
    var c := Span(s, b, IsDigit);
    assert IsDigit(s[b]);
  }

  /** Every character from index `d` on is NUL. */
  predicate NulFrom(s: string, d: nat) {
    forall k :: d <= k < |s| ==> IsNul(s[k])
  }

  /**
   * The boundaries of a number's parts: white space before `a`, an optional
   * sign in `a..b`, digits in `b..c`, white space in `c..d`, NUL characters
   * after `d`.
   */
  predicate Parts(s: string, a: nat, b: nat, c: nat, d: nat) {
    && a <= b < c <= d <= |s|
    && (forall k :: 0 <= k < a ==> IsWhite(s[k]))
    && (b == a || (b == a + 1 && IsSign(s[a])))
    && (forall k :: b <= k < c ==> IsDigit(s[k]))
    && (forall k :: c <= k < d ==> IsWhite(s[k]))
    && NulFrom(s, d)
  }

  /** Text with those parts parses to the signed value of its digit run, if it fits. */
  lemma ParseAt(s: string, a: nat, b: nat, c: nat, d: nat)
    requires Parts(s, a, b, c, d)
    ensures Parse(s) == Fit(b == a + 1 && s[a] == '-', DigitsValue(s[b..c]))
  {
    SpanIs(s, 0, a, IsWhite);
    SpanIs(s, b, c, IsDigit);
    SpanIs(s, c, d, IsWhite);
  }

  /**
   * The converse of `ParseAt`: text that parses has the parts `ParseAt`
   * describes, and its value is the signed value of its digit run.
   */
  lemma ParseHasShape(s: string)
    requires Parse(s).Some?
    ensures exists a: nat, b: nat, c: nat, d: nat ::
      Parts(s, a, b, c, d) && Parse(s) == Fit(b == a + 1 && s[a] == '-', DigitsValue(s[b..c]))
  {
    var a := Span(s, 0, IsWhite);
    var b := if a < |s| && IsSign(s[a]) then a + 1 else a;
    var c := Span(s, b, IsDigit);
    var d := Span(s, c, IsWhite);
    assert Parts(s, a, b, c, d);
    ParseAt(s, a, b, c, d);
  }

  /**
   * After the digit run only white space and NULs may follow: text fails to
   * parse when it holds a digit at `i` and, at `j`, a character that is
   * neither white space nor NUL and lies outside the digit run through `i`
   * (a non-digit occurs in `i..j+1`). So "1-" and "1 2" fail.
   */
  lemma ParseRejectsTextAfterDigits(s: string, i: nat, j: nat)
    requires i < j < |s|
    requires IsDigit(s[i])
    requires !IsWhite(s[j]) && !IsNul(s[j])
    requires !AllDigits(s[i..j + 1])
    ensures Parse(s).None?
  {
    if Parse(s).Some? {
      ParseHasShape(s);
      var a: nat, b: nat, c: nat, d: nat :| Parts(s, a, b, c, d);
      DigitRunReaches(s, a, b, c, d, i, j);
    }
  }

  /**
   * Within text with those parts, a digit at `i` and a character at `j` that
   * is neither white space nor NUL lie in the one digit run, with only digits
   * between them.
   */
  lemma DigitRunReaches(s: string, a: nat, b: nat, c: nat, d: nat, i: nat, j: nat)
    requires Parts(s, a, b, c, d)
    requires i < j < |s|
    requires IsDigit(s[i])
    requires !IsWhite(s[j]) && !IsNul(s[j])
    ensures AllDigits(s[i..j + 1])
  {
    assert b <= i;
    assert j < c;
    var t := s[i..j + 1];
    forall m | 0 <= m < |t| ensures IsDigit(t[m]) {
      assert t[m] == s[i + m];
    }
  }

  /**
   * At most one sign is allowed: text whose leading white space is followed
   * by two signs fails to parse. So "+-1" and "--5" fail.
   */
  lemma ParseRejectsSecondSign(s: string, a: nat)
    requires a + 1 < |s|
    requires forall k :: 0 <= k < a ==> IsWhite(s[k])
    requires IsSign(s[a]) && IsSign(s[a + 1])
    ensures Parse(s).None?
  {
    SpanIs(s, 0, a, IsWhite);
    SpanIs(s, a + 1, a + 1, IsDigit);
  }

  /** Text that is an optional sign followed by digits only. */
  lemma ParseUnpadded(s: string, b: nat)
    requires b <= 1 && b < |s|
    requires b == 1 ==> IsSign(s[0])
    requires forall k :: b <= k < |s| ==> IsDigit(s[k])
    ensures Parse(s) == Fit(b == 1 && s[0] == '-', DigitsValue(s[b..]))
  {
    assert s[b..|s|] == s[b..];
    assert Parts(s, 0, b, |s|, |s|);
    ParseAt(s, 0, b, |s|, |s|);
  }

  /** A run that ends where `p` first fails is exactly what `Span` measures. */
  lemma SpanIs(s: string, i: nat, j: nat, p: char -> bool)
    requires i <= j <= |s|
    requires forall k :: i <= k < j ==> p(s[k])
    requires j == |s| || !p(s[j])
    ensures Span(s, i, p) == j
  {
  }

  lemma {:induction false} DigitsValueOfNatDigits(n: nat)
    ensures DigitsValue(NatDigits(n)) == n
    decreases n
  {
    if n >= 10 {
      var s := NatDigits(n);
      assert s[..|s| - 1] == NatDigits(n / 10);
      DigitsValueOfNatDigits(n / 10);
      assert DigitsValue(s) == 10 * (n / 10) + n % 10;
    }
  }

  lemma {:induction false} LeadingNonZeroIsPositive(s: string)
    requires |s| >= 1 && AllDigits(s) && s[0] != '0'
    ensures DigitsValue(s) >= 1
    decreases |s|
  {
    if |s| > 1 {
      LeadingNonZeroIsPositive(s[..|s| - 1]);
    }
  }

  lemma {:induction false} NatDigitsOfDigitsValue(s: string)
    requires |s| >= 1 && AllDigits(s) && (s[0] == '0' ==> |s| == 1)
    ensures NatDigits(DigitsValue(s)) == s
    decreases |s|
  {
    if |s| > 1 {
      var p := s[..|s| - 1];
      var d := DigitValue(s[|s| - 1]);
      var n := DigitsValue(s);
      LeadingNonZeroIsPositive(p);
      assert n == 10 * DigitsValue(p) + d;
      DivMod10(DigitsValue(p), d);
      NatDigitsOfDigitsValue(p);
      assert NatDigits(n) == NatDigits(DigitsValue(p)) + [DigitChar(d)];
      assert s == p + [s[|s| - 1]];
    }
  }

  lemma DivMod10(x: nat, d: nat)
    requires d < 10
    ensures (10 * x + d) / 10 == x && (10 * x + d) % 10 == d
    ensures 10 * x + d >= 10 <==> x > 0
  {
  }

  /** Decimal print then parse is the identity on every 64-bit value. */
  lemma ParsePrint(v: Int64)
    ensures Parse(Print(v)) == Some(v)
  {
    var m: nat := if v < 0 then -(v as int) else v;
    ParseSignedDigits(v < 0, m);
    assert Print(v) == (if v < 0 then "-" else "") + NatDigits(m);
  }

  /** The digits of `m`, after a `-` when `negative`, parse to the signed value of `m`, if it fits. */
  lemma ParseSignedDigits(negative: bool, m: nat)
    ensures Parse((if negative then "-" else "") + NatDigits(m)) == Fit(negative, m)
  {
    var s := (if negative then "-" else "") + NatDigits(m);
    var b := if negative then 1 else 0;
    SignedDigitsShape(negative, m);
    ParseUnpadded(s, b);
    DigitsValueOfNatDigits(m);
  }

  lemma SignedDigitsShape(negative: bool, m: nat)
    ensures var s := (if negative then "-" else "") + NatDigits(m);
      var b := if negative then 1 else 0;
      && b < |s|
      && (negative ==> s[0] == '-')
      && s[b..] == NatDigits(m)
      && forall k :: b <= k < |s| ==> IsDigit(s[k])
  {
    var s := (if negative then "-" else "") + NatDigits(m);
    var b := if negative then 1 else 0;
    assert s[b..] == NatDigits(m);
    forall k | b <= k < |s| ensures IsDigit(s[k]) {
      assert s[k] == NatDigits(m)[k - b];
    }
  }

  /** `Print` only produces canonical text. */
  lemma PrintIsCanonical(v: Int64)
    ensures IsCanonical(Print(v))
  {
    var m: nat := if v < 0 then -(v as int) else v;
    DigitsValueOfNatDigits(m);
    if v < 0 {
      assert Print(v)[1..] == NatDigits(m);
    }
  }

  /** Text survives parse-then-print unchanged iff it is canonical. */
  lemma CanonicalIffReproduced(s: string)
    ensures (Parse(s).Some? && Print(Parse(s).value) == s) <==> IsCanonical(s)
  {
    if Parse(s).Some? && Print(Parse(s).value) == s {
      PrintIsCanonical(Parse(s).value);
    }
    if IsCanonical(s) {
      if s[0] == '-' {
        NegativeCanonicalReproduced(s);
      } else {
        NonNegativeCanonicalReproduced(s);
      }
    }
  }

  lemma NegativeCanonicalReproduced(s: string)
    requires |s| >= 2 && s[0] == '-' && AllDigits(s[1..]) && s[1] != '0'
    requires DigitsValue(s[1..]) <= -MinInt64
    ensures Parse(s) == Some(-(DigitsValue(s[1..]) as int))
    ensures Print(-(DigitsValue(s[1..]) as int)) == s
  {
    LeadingNonZeroIsPositive(s[1..]);
    NegativeCanonicalParses(s);
    NegativeCanonicalPrints(s);
  }

  lemma NegativeCanonicalParses(s: string)
    requires |s| >= 2 && s[0] == '-' && AllDigits(s[1..])
    ensures Parse(s) == Fit(true, DigitsValue(s[1..]))
  {
    forall k | 1 <= k < |s| ensures IsDigit(s[k]) {
      assert s[k] == s[1..][k - 1];
    }
    ParseUnpadded(s, 1);
  }

  lemma NegativeCanonicalPrints(s: string)
    requires |s| >= 2 && s[0] == '-' && AllDigits(s[1..]) && s[1] != '0'
    requires 0 < DigitsValue(s[1..]) <= -MinInt64
    ensures Print(-(DigitsValue(s[1..]) as int)) == s
  {
    NatDigitsOfDigitsValue(s[1..]);
    assert s == "-" + s[1..];
  }

  lemma NonNegativeCanonicalReproduced(s: string)
    requires |s| >= 1 && AllDigits(s) && (s[0] == '0' ==> |s| == 1)
    requires DigitsValue(s) <= MaxInt64
    ensures Parse(s) == Some(DigitsValue(s))
    ensures Print(DigitsValue(s)) == s
  {
    assert s[0..] == s;
    ParseUnpadded(s, 0);
    NatDigitsOfDigitsValue(s);
  }

  /** A run of digits whose value exceeds the 64-bit range does not parse. */
  lemma ParseOverflowFails(sign: string, digits: string)
    requires sign == "" || sign == "+" || sign == "-"
    requires |digits| > 0 && AllDigits(digits)
    requires DigitsValue(digits) > (if sign == "-" then -MinInt64 else MaxInt64)
    ensures Parse(sign + digits) == None
  {
    var s := sign + digits;
    assert s[|sign|..] == digits;
    forall k | |sign| <= k < |s| ensures IsDigit(s[k]) {
      assert s[k] == digits[k - |sign|];
    }
    ParseUnpadded(s, |sign|);
  }

  /** Text without a digit, empty text included, does not parse. */
  lemma ParseNeedsDigit(s: string)
    requires forall k :: 0 <= k < |s| ==> !IsDigit(s[k])
    ensures Parse(s) == None
  {
    if Parse(s).Some? {
      ParsedTextIsNumeric(s);
    }
  }

  /** Text holding a character that cannot occur in a number does not parse. */
  lemma ParseRejectsForeignChar(s: string, k: nat)
    requires k < |s| && !IsNumberChar(s[k])
    ensures Parse(s) == None
  {
    if Parse(s).Some? {
      ParsedTextIsNumeric(s);
    }
  }
}

=== FILE: json_api.dfy ===
/** The JSON:API envelope the order endpoints wrap their bodies in. */
module JsonApi {

  /** One resource object: its type name, its identifier and its attributes. */
  datatype JsonApiData<T> = JsonApiData(resourceType: string, id: string, attributes: T)

  /** A single-resource document, `{ "data": ... }`. */
  datatype JsonApiResponse<T> = JsonApiResponse(data: JsonApiData<T>)
}

=== FILE: legacy_orders.dfy ===
/**
 * The earlier order record (`Order`, with a list of 32-bit product numbers)
 * and its transfer object (the global-namespace `OrderDto`). Only the
 * identifier changes representation; the timestamp stays a 64-bit integer.
 */
module LegacyOrders {
  import opened Wrappers
  import ObjectIds
  import Int64Text

  type ObjectId = ObjectIds.ObjectId
  type Int64 = Int64Text.Int64

  const MinInt32 := -0x8000_0000
  const MaxInt32 := 0x7fff_ffff

  /** C#'s `int`. */
  type Int32 = v: int | MinInt32 <= v <= MaxInt32

  datatype Order = Order(
    id: ObjectId,
    idUser: string,
    timestamp: Int64,
    status: string,
    products: seq<Int32>)

  datatype OrderDto = OrderDto(
    id: string,
    idUser: string,
    timestamp: Int64,
    status: string,
    products: seq<Int32>)

  /** `OrderDto.FromOrder`. */
  function FromOrder(o: Order): (d: OrderDto)
    ensures d.idUser == o.idUser && d.timestamp == o.timestamp
    ensures d.status == o.status && d.products == o.products
    ensures ObjectIds.IsCanonicalText(d.id)
    ensures ObjectIds.TryParse(d.id) == Some(o.id)
  {
    ObjectIds.ParseToString(o.id);
    OrderDto(ObjectIds.ToString(o.id), o.idUser, o.timestamp, o.status, o.products)
  }

  /** `OrderDto.ToOrder`; `newId` stands for `ObjectId.GenerateNewId()`. */
  function ToOrder(d: OrderDto, newId: ObjectId): (o: Order)
    ensures o.idUser == d.idUser && o.timestamp == d.timestamp
    ensures o.status == d.status && o.products == d.products
    ensures ObjectIds.TryParse(d.id).Some? ==> o.id == ObjectIds.TryParse(d.id).value
    ensures ObjectIds.TryParse(d.id).None? ==> o.id == newId
  {
    Order(ObjectIds.TryParse(d.id).GetOr(newId), d.idUser, d.timestamp, d.status, d.products)
  }

  /** Converting to the transfer object and back restores the order exactly. */
  lemma ToOrderFromOrder(o: Order, newId: ObjectId)
    ensures ToOrder(FromOrder(o), newId) == o
  {
  }

  /** A transfer object survives the round trip iff its identifier is canonical text. */
  lemma FromOrderToOrderIdentityIff(d: OrderDto, newId: ObjectId)
    ensures FromOrder(ToOrder(d, newId)) == d <==> ObjectIds.IsCanonicalText(d.id)
  {
    ObjectIds.CanonicalIffReproduced(d.id);
  }
}

=== FILE: object_id.dfy ===
/**
 * The document store's 12-byte object identifier and its text form.
 * `ToString` renders the bytes as 24 lower-case hexadecimal digits;
 * `TryParse` accepts exactly 24 hexadecimal digits of either case.
 */
module ObjectIds {
  import opened Wrappers

  type Byte = b: int | 0 <= b < 256

  const IdLength := 12
  const TextLength := 24

  /** An identifier is exactly twelve bytes. */
  type ObjectId = s: seq<Byte> | |s| == IdLength
    witness [0, 0, 0, 0, 0, 0, 0, 0, 0, 0, 0, 0]

  /** `ObjectId.Empty`, the all-zero identifier the driver treats as unset. */
  const Empty: ObjectId := [0, 0, 0, 0, 0, 0, 0, 0, 0, 0, 0, 0]

  /** Every byte of the identifier is zero. */
  predicate IsEmpty(id: ObjectId) {
    forall i :: 0 <= i < IdLength ==> id[i] == 0
  }

  /** `Empty` is the one identifier whose bytes are all zero. */
  lemma IsEmptyIff(id: ObjectId)
    ensures IsEmpty(id) <==> id == Empty
  {
    if IsEmpty(id) {
      assert forall i :: 0 <= i < IdLength ==> id[i] == Empty[i];
    }
  }

  predicate IsHexDigit(c: char) {
    '0' <= c <= '9' || 'a' <= c <= 'f' || 'A' <= c <= 'F'
  }

  predicate IsLowerHexDigit(c: char) {
    '0' <= c <= '9' || 'a' <= c <= 'f'
  }

  predicate AllHex(s: string) {
    forall i :: 0 <= i < |s| ==> IsHexDigit(s[i])
  }

  predicate AllLowerHex(s: string) {
    forall i :: 0 <= i < |s| ==> IsLowerHexDigit(s[i])
  }

  /** The text forms that `ToString` can produce: 24 lower-case hex digits. */
  predicate IsCanonicalText(s: string) {
    |s| == TextLength && AllLowerHex(s)
  }

  /** Lower-case hex digit of a nibble. */
  function NibbleChar(n: int): (c: char)
    requires 0 <= n < 16
    ensures IsLowerHexDigit(c)
  {
    if n < 10 then ('0' as int + n) as char else ('a' as int + n - 10) as char
  }

  /** Value of a hex digit, either case. */
  function NibbleValue(c: char): (n: int)
    requires IsHexDigit(c)
    ensures 0 <= n < 16
  {
    if '0' <= c <= '9' then c as int - '0' as int
    else if 'a' <= c <= 'f' then c as int - 'a' as int + 10
    else c as int - 'A' as int + 10
  }

  /** Lower-case form of a hex digit. */
  function LowerHex(c: char): (d: char)
    requires IsHexDigit(c)
    ensures IsLowerHexDigit(d)
    ensures IsLowerHexDigit(c) ==> d == c
  {
    if 'A' <= c <= 'F' then (c as int - 'A' as int + 'a' as int) as char else c
  }

  function ToLowerHex(s: string): (t: string)
    requires AllHex(s)
    ensures |t| == |s|
  {
    if s == [] then [] else [LowerHex(s[0])] + ToLowerHex(s[1..])
  }

  /** Two hex digits per byte, high nibble first. */
  function HexOfBytes(b: seq<Byte>): (s: string)
    ensures |s| == 2 * |b|
    ensures AllLowerHex(s)
  {
    if b == [] then []
    else [NibbleChar(b[0] / 16), NibbleChar(b[0] % 16)] + HexOfBytes(b[1..])
  }

  /** Bytes spelled by an even-length string of hex digits. */
  function BytesOfHex(s: string): (b: seq<Byte>)
    requires |s| % 2 == 0
    requires AllHex(s)
    ensures 2 * |b| == |s|
  {
    if s == [] then []
    else [16 * NibbleValue(s[0]) + NibbleValue(s[1])] + BytesOfHex(s[2..])
  }

  /** `ObjectId.ToString()`. */
  function ToString(id: ObjectId): (s: string)
    ensures IsCanonicalText(s)
  {
    HexOfBytes(id)
  }

  /** `ObjectId.TryParse(s, out id)`: the `Some` case is the `true` return. */
  function TryParse(s: string): (r: Option<ObjectId>)
    ensures r.Some? <==> |s| == TextLength && AllHex(s)
  {
    if |s| == TextLength && AllHex(s) then Some(BytesOfHex(s)) else None
  }

  lemma {:induction false} NibbleRoundTrip(n: int)
    requires 0 <= n < 16
    ensures NibbleValue(NibbleChar(n)) == n
  {
  }

  lemma {:induction false} BytesOfHexOfBytes(b: seq<Byte>)
    ensures BytesOfHex(HexOfBytes(b)) == b
    decreases |b|
  {
    if b != [] {
      var s := HexOfBytes(b);
      assert s[2..] == HexOfBytes(b[1..]);
      NibbleRoundTrip(b[0] / 16);
      NibbleRoundTrip(b[0] % 16);
      BytesOfHexOfBytes(b[1..]);
    }
  }

  lemma NibbleOfDigit(c: char)
    requires IsHexDigit(c)
    ensures NibbleChar(NibbleValue(c)) == LowerHex(c)
  {
  }

  /** The byte two hex digits spell renders back as their lower-case forms. */
  lemma ByteOfDigits(hi: char, lo: char)
    requires IsHexDigit(hi) && IsHexDigit(lo)
    ensures var v := 16 * NibbleValue(hi) + NibbleValue(lo);
      NibbleChar(v / 16) == LowerHex(hi) && NibbleChar(v % 16) == LowerHex(lo)
  {
    var v := 16 * NibbleValue(hi) + NibbleValue(lo);
    assert v / 16 == NibbleValue(hi) && v % 16 == NibbleValue(lo);
    NibbleOfDigit(hi);
    NibbleOfDigit(lo);
  }

  lemma {:induction false} HexOfBytesOfHex(s: string)
    requires |s| % 2 == 0
    requires AllHex(s)
    ensures HexOfBytes(BytesOfHex(s)) == ToLowerHex(s)
    decreases |s|
  {
    if s != [] {
      var rest := s[2..];
      var v := 16 * NibbleValue(s[0]) + NibbleValue(s[1]);
      BytesOfHexStep(s);
      HexOfBytesStep(v, BytesOfHex(rest));
      ToLowerHexStep(s);
      ByteOfDigits(s[0], s[1]);
      HexOfBytesOfHex(rest);
    }
  }

  lemma BytesOfHexStep(s: string)
    requires |s| >= 2 && |s| % 2 == 0 && AllHex(s)
    ensures BytesOfHex(s) == [16 * NibbleValue(s[0]) + NibbleValue(s[1])] + BytesOfHex(s[2..])
  {
  }

  lemma HexOfBytesStep(v: Byte, rest: seq<Byte>)
    ensures HexOfBytes([v] + rest) == [NibbleChar(v / 16), NibbleChar(v % 16)] + HexOfBytes(rest)
  {
    assert ([v] + rest)[1..] == rest;
  }

  lemma ToLowerHexStep(s: string)
    requires |s| >= 2 && AllHex(s)
    ensures ToLowerHex(s) == [LowerHex(s[0]), LowerHex(s[1])] + ToLowerHex(s[2..])
  {
    assert s[1..][1..] == s[2..];
  }

  lemma {:induction false} LowerHexOfLower(s: string)
    requires AllLowerHex(s)
    ensures ToLowerHex(s) == s
    decreases |s|
  {
    if s != [] {
      LowerHexOfLower(s[1..]);
      assert s == [s[0]] + s[1..];
    }
  }

  /** Parsing the rendered text gives back the same identifier. */
  lemma ParseToString(id: ObjectId)
    ensures TryParse(ToString(id)) == Some(id)
  {
    BytesOfHexOfBytes(id);
  }

  /** Rendering a parsed identifier gives the lower-case form of the parsed text. */
  lemma ToStringOfParse(s: string)
    requires TryParse(s).Some?
    ensures ToString(TryParse(s).value) == ToLowerHex(s)
  {
    HexOfBytesOfHex(s);
  }

  /** Text is reproduced exactly by parse-then-render iff it is canonical. */
  lemma CanonicalIffReproduced(s: string)
    ensures (TryParse(s).Some? && ToString(TryParse(s).value) == s) <==> IsCanonicalText(s)
  {
    if TryParse(s).Some? {
      ToStringOfParse(s);
      if IsCanonicalText(s) {
        LowerHexOfLower(s);
      }
    }
  }

  /** Distinct identifiers have distinct texts. */
  lemma ToStringInjective(a: ObjectId, b: ObjectId)
    requires ToString(a) == ToString(b)
    ensures a == b
  {
    ParseToString(a);
    ParseToString(b);
  }
}

=== FILE: orders.dfy ===
/**
 * The order record stored in the document store and its transfer object
 * (`APIOrder.Model.OrderDto`). The transfer object carries the identifier and
 * the timestamp as text; everything else is copied field by field.
 */
module Orders {
  import opened Wrappers
  import ObjectIds
  import Int64Text

  type ObjectId = ObjectIds.ObjectId
  type Int64 = Int64Text.Int64

  /** A product line of a stored order; every field is free text. */
  datatype Product = Product(idProduct: string, name: string, quantity: string)

  /** A product line of the transfer object. */
  datatype ProductDto = ProductDto(idProduct: string, name: string, quantity: string)

  datatype Order = Order(
    id: ObjectId,
    idUser: string,
    timestamp: Int64,
    status: string,
    address: string,
    products: seq<Product>)

  datatype OrderDto = OrderDto(
    id: string,
    idUser: string,
    timestamp: string,
    status: string,
    address: string,
    products: seq<ProductDto>)

  /** A product line and its transfer form carry the same three fields. */
  predicate SameProduct(p: Product, d: ProductDto) {
    p.idProduct == d.idProduct && p.name == d.name && p.quantity == d.quantity
  }

  /** Two product lists correspond position by position. */
  predicate SameProducts(ps: seq<Product>, ds: seq<ProductDto>) {
    |ps| == |ds| && forall i :: 0 <= i < |ps| ==> SameProduct(ps[i], ds[i])
  }

  /** The product projection of `FromOrder`. */
  function ProductsToDto(ps: seq<Product>): (ds: seq<ProductDto>)
    ensures SameProducts(ps, ds)
  {
    if ps == [] then []
    else [ProductDto(ps[0].idProduct, ps[0].name, ps[0].quantity)] + ProductsToDto(ps[1..])
  }

  /** The product projection of `ToOrder`. */
  function ProductsFromDto(ds: seq<ProductDto>): (ps: seq<Product>)
    ensures SameProducts(ps, ds)
  {
    if ds == [] then []
    else [Product(ds[0].idProduct, ds[0].name, ds[0].quantity)] + ProductsFromDto(ds[1..])
  }

  /** `OrderDto.FromOrder`. */
  function FromOrder(o: Order): (d: OrderDto)
    ensures d.idUser == o.idUser && d.status == o.status && d.address == o.address
    ensures ObjectIds.IsCanonicalText(d.id)
    ensures SameProducts(o.products, d.products)
  {
    OrderDto(
      ObjectIds.ToString(o.id),
      o.idUser,
      Int64Text.Print(o.timestamp),
      o.status,
      o.address,
      ProductsToDto(o.products))
  }

  /**
   * `OrderDto.ToOrder`. `newId` stands for the identifier that
   * `ObjectId.GenerateNewId()` would return; it is used only when the text
   * identifier does not parse.
   */
  function ToOrder(d: OrderDto, newId: ObjectId): (o: Order)
    ensures o.idUser == d.idUser && o.status == d.status && o.address == d.address
    ensures ObjectIds.TryParse(d.id).Some? ==> o.id == ObjectIds.TryParse(d.id).value
    ensures ObjectIds.TryParse(d.id).None? ==> o.id == newId
    ensures Int64Text.Parse(d.timestamp).Some? ==> o.timestamp == Int64Text.Parse(d.timestamp).value
    ensures Int64Text.Parse(d.timestamp).None? ==> o.timestamp == 0
    ensures SameProducts(o.products, d.products)
  {
    Order(
      ObjectIds.TryParse(d.id).GetOr(newId),
      d.idUser,
      Int64Text.Parse(d.timestamp).GetOr(0),
      d.status,
      d.address,
      ProductsFromDto(d.products))
  }

  /**
   * The text fields `FromOrder` writes are in canonical form and read back
   * as the values they were written from.
   */
  lemma FromOrderTextIsCanonical(o: Order)
    ensures var d := FromOrder(o);
      && ObjectIds.IsCanonicalText(d.id) && ObjectIds.TryParse(d.id) == Some(o.id)
      && Int64Text.IsCanonical(d.timestamp) && Int64Text.Parse(d.timestamp) == Some(o.timestamp)
  {
    ObjectIds.ParseToString(o.id);
    Int64Text.PrintIsCanonical(o.timestamp);
    Int64Text.ParsePrint(o.timestamp);
  }

  /** Field-by-field correspondence determines each product list from the other. */
  lemma SameProductsUnique(ps: seq<Product>, qs: seq<Product>, ds: seq<ProductDto>)
    requires SameProducts(ps, ds) && SameProducts(qs, ds)
    ensures ps == qs
  {
    assert forall i :: 0 <= i < |ps| ==> ps[i] == qs[i];
  }

  lemma SameDtoProductsUnique(ps: seq<Product>, ds: seq<ProductDto>, es: seq<ProductDto>)
    requires SameProducts(ps, ds) && SameProducts(ps, es)
    ensures ds == es
  {
    assert forall i :: 0 <= i < |ds| ==> ds[i] == es[i];
  }

  /** Converting to the transfer object and back restores the order exactly. */
  lemma ToOrderFromOrder(o: Order, newId: ObjectId)
    ensures ToOrder(FromOrder(o), newId) == o
  {
    var d := FromOrder(o);
    FromOrderTextIsCanonical(o);
    SameProductsUnique(ToOrder(d, newId).products, o.products, d.products);
  }

  /**
   * A transfer object survives `ToOrder` then `FromOrder` unchanged iff its
   * identifier is 24 lower-case hex digits and its timestamp is the canonical
   * decimal text of a 64-bit value; otherwise both are normalised.
   */
  lemma FromOrderToOrderIdentityIff(d: OrderDto, newId: ObjectId)
    ensures FromOrder(ToOrder(d, newId)) == d
        <==> ObjectIds.IsCanonicalText(d.id) && Int64Text.IsCanonical(d.timestamp)
  {
    var o := ToOrder(d, newId);
    var e := FromOrder(o);
    SameDtoProductsUnique(o.products, e.products, d.products);
    FromOrderTextIsCanonical(o);
    ObjectIds.CanonicalIffReproduced(d.id);
    Int64Text.CanonicalIffReproduced(d.timestamp);
  }

  /** One round of `ToOrder` then `FromOrder` already reaches a fixed point. */
  lemma NormalisationIsIdempotent(d: OrderDto, newId1: ObjectId, newId2: ObjectId)
    ensures var e := FromOrder(ToOrder(d, newId1));
      FromOrder(ToOrder(e, newId2)) == e
  {
    ToOrderFromOrder(ToOrder(d, newId1), newId2);
  }
}

=== FILE: wrappers.dfy ===
/** Optional values, used for the library's `TryParse` outcomes. */
module Wrappers {

  datatype Option<+T> = None | Some(value: T) {

    /** The wrapped value, or `default` when there is none. */
    function GetOr(default: T): (r: T)
      ensures Some? ==> r == value
      ensures None? ==> r == default
    {
      match this
      case Some(v) => v
      case None => default
    }
  }
}
